=== FILE: README.md ===
# react-app-rewire-css-modules, less variant — a Dafny model

`index.js` exports a rewire for create-react-app's webpack configuration.
The rewire locates rules inside `config.module.rules`:

- the rule whose `test` is `/\.css$/`;
- inside it, the `css-loader` and `postcss-loader` entries;
- the `file-loader` catch-all rule.

It then edits the configuration in place:

- it excludes `src/components` from the css rule;
- it derives three rules from the css rule: a css-modules rule, a less rule and a less-modules rule;
- it splices the three rules into the array that holds the file-loader rule, right before it.

This project models that code and proves what it does.

- `Rules` (rules.dfy) holds the rule tree as a value:
  - `Rule`, with `use`, `oneOf` and an array-valued `loader` as the child arrays that `ruleChildren` picks;
  - addressing by paths of indices (`Loc`, `ContainerAt`, `NodeAt`);
  - the rebuild of a tree after a change deep inside it (`ReplaceContainer`, `InsertAt`, `SetAt`).
- `Locator` (locator.dfy) holds `findIndexAndRules` and `findRule`: the depth-first, pre-order search and its handle `{index, rules}`.
- `Matchers` (matchers.dfy) holds `cssRuleMatcher`, `createLoaderMatcher` and the `String.prototype.indexOf` it relies on.
- `Splice` (splice.dfy) holds `addBeforeRule` and `addAfterRule`, and what a later search sees after a splice.
- `Rewire` (rewire.dfy) holds the transform returned by `createRewireLess`:
  - `RewireLess` is its specification as a function of the rule array;
  - `Config` is the configuration object whose `rules` the transform updates in place;
  - `Transform` is the step-by-step method, proved equal to `RewireLess`.
- `RewireFacts` (rewire_facts.dfy) proves what the transform guarantees, for both the success path and each way it throws.

Each function of index.js has one member that models it:

- `ruleChildren` → `Rules.Children`;
- `findIndexAndRules` → `Locator.FindIndexAndRules`, whose loop is `Locator.FindFrom`;
- `findRule` → `Locator.FindRule`;
- `cssRuleMatcher` → `Matchers.IsCssRule`;
- `createLoaderMatcher` → `Matchers.LoaderMatcher`;
- `addBeforeRule` → `Splice.AddBeforeRule`;
- `addAfterRule` → `Splice.AddAfterRule`;
- `rules.splice(k, 0, value)` → `Rules.Insert` at the located array, via `Splice.SpliceInto`;
- the closure returned by `createRewireLess` → `Rewire.RewireLess`, and `Rewire.Transform` in place.

The `## Model` table names the lemmas that state what each of them guarantees.

A JavaScript `TypeError` arises when `findIndexAndRules` returns `undefined` and the caller destructures it. The model returns `None` or `Crashed(anchor)` there, and keeps every change already made, as the JavaScript does.

## Model

| member | source | states |
|---|---|---|
| Rules.ChildrenRoundTrip | index.js:4-8 | Putting back the child array `ruleChildren` returned gives the same node. A node without `use`, `oneOf` or array `loader` has no children, and replacing its children changes nothing. |
| Rules.SetAtSpec | index.js:56 | Assigning to a field of the located rule puts the new rule at its position. Nodes off its path are unchanged, and its ancestors change only in their child arrays. |
| Rules.InsertAtMoves | index.js:45 | A node of the tree is still present after a splice, at its shifted position. It is unchanged when the splice is not below it, and otherwise changes only in its child array. |
| Rules.SpliceNodes | index.js:45 | A splice into one array moves the later nodes of that array `|vs|` places along, subtrees included. Every node that is not an ancestor of the array stays where it was. |
| Rules.ReplaceContainerSpec | index.js:40 | After a splice deep in the tree, the path leads to the new array. Nodes off the path are unchanged, and nodes on the path differ only in their child array. |
| Locator.FindRule | index.js:24-27 | `findRule` yields a rule exactly when `findIndexAndRules` finds one. That rule is `rules[index]`: the node at the returned handle, which the matcher accepts (the first match in pre-order, by `Locator.FindFirst`). |
| Locator.FindSound | index.js:10-22 | The returned `{index, rules}` is in range and its node matches. `rules` is the root array or the child array of a node of the tree. |
| Locator.FindNoneIff | index.js:10-22 | The search returns `undefined` exactly when no node anywhere in the tree matches. |
| Locator.FindFirst | index.js:15-20 | No matching node comes before the returned one in pre-order (parent before its children, children before later siblings). |
| Locator.FindUnique | index.js:10-22 | A matching node with no match before it in pre-order is the one returned. |
| Locator.BeforeTotal | index.js:15-20 | The pre-order used by the search is asymmetric, and any two distinct positions are ordered one way or the other. |
| Locator.BeforeTrans | index.js:15-20 | The pre-order is transitive. With `Locator.BeforeTotal`, it is a strict total order on positions. |
| Matchers.IndexFrom | index.js:33 | `indexOf` returns the first index at which the substring occurs, or -1 exactly when it occurs nowhere. |
| Matchers.CssRuleMatcherSpec | index.js:29-30 | `cssRuleMatcher` holds exactly when the rule's `test` has the string form of `/\.css$/`. |
| Matchers.LoaderMatcherSpec | index.js:32-33 | A loader matcher holds exactly when `loader` is a single path containing `/<name>/`. An array-valued `loader` never matches. |
| Matchers.LoaderMatchesSegment | index.js:32-33 | For a loader name without `/`, the matcher holds exactly when some `/`-delimited segment of the single loader path is the name itself, so a directory that merely ends in the name is not matched. |
| Matchers.LoaderMatcherRejectsSuffix | index.js:32-34 | Example: `/foo-css-loader/` is not matched by the css-loader matcher. |
| Matchers.LoaderMatcherAcceptsSegment | index.js:32-34 | A path with a `/css-loader/` segment is matched. |
| Matchers.MatchersLookAt | index.js:29-33 | The matchers read only `test` and `loader`, never `include`, `exclude`, `options` or child arrays. |
| Splice.AddBeforeRuleSpec | index.js:43-46 | It fails exactly when nothing matches. Otherwise the located array becomes `c[..i] + [value] + c[i..]` and the match was at `i`. Nodes off the path are unchanged. The ancestors of the array, and a node source, change only in their child array. |
| Splice.AddAfterRuleSpec | index.js:38-41 | It fails exactly when nothing matches. Otherwise the located array becomes `c[..i+1] + [value] + c[i+1..]`, right after the match at `i`. Nodes off the path are unchanged. The ancestors of the array, and a node source, change only in their child array. |
| Splice.SpliceIntoSpec | index.js:40 | `rules.splice(k, 0, value)` on the located array, for an array source or a node source. |
| Splice.FindAfterInsertBefore | index.js:43-46 | Inserting, right before the first match, a rule that neither matches nor holds a match leaves the first match one index further on. |
| Splice.FindAfterInsertNone | index.js:38-41 | Inserting a rule that neither matches nor holds a match into a tree without matches leaves a tree without matches. |
| Splice.FindAfterSet | index.js:56 | Replacing a node by one the matcher cannot tell apart leaves the search result unchanged. |
| Rewire.MergeCssModulesOptions | index.js:66-72 | `Object.assign({modules: true, localIdentName}, options)` keeps every existing key and value. It adds `modules: true` and `localIdentName` only where they are missing. |
| Rewire.Config.UpdateRule | index.js:56 | The assignment `cssRule.exclude = include` updates the configuration's rule tree in place. |
| Rewire.Config.AddBeforeFileLoaderRule | index.js:73 | The splice before the file-loader rule succeeds exactly when a file-loader rule exists. Otherwise the configuration is unchanged. |
| Rewire.Transform | index.js:54-91 | The in-place transform ends with exactly the outcome and rule array given by `RewireLess`. It tracks the position of the inserted css-modules rule through the second splice and clones the rule found there. |
| Rewire.Relocated | index.js:73-82 | The css-modules rule that `cloneDeep` copies at index.js:81 is the inserted rule as it is now in the tree. It differs from the inserted value at most in its child array, and it is that value whenever the second splice did not go into its subtree. |
| RewireFacts.RewireWithoutCssRule | index.js:55-56 | The transform throws at its first step exactly when no rule has the `/\.css$/` test, and then nothing has changed. |
| RewireFacts.RewireWithoutCssLoader | index.js:65 | With no css-loader under the css rule it throws at the css-loader lookup, after the css rule's `exclude` has been written. |
| RewireFacts.RewireWithoutFileLoader | index.js:73 | With no file-loader rule it throws at the first insertion, and only `exclude` has changed. |
| RewireFacts.RewireWithoutPostcssLoader | index.js:75-78 | With no postcss-loader it throws after the css-modules rule has been inserted, and that insertion is not undone. |
| RewireFacts.CssModulesRuleSpec | index.js:60-72 | The css-modules rule exists exactly when the css rule has a css-loader. It keeps `test`, sets `include`/`exclude` to the given patterns, and differs below only in the first css-loader, whose options become the merged options. The nodes on the path to that css-loader change only in their child arrays, and every other node below the rule is unchanged. |
| RewireFacts.CssModulesRuleSearch | index.js:60-72 | Every loader matcher sees the css-modules rule just as it sees the css rule. |
| RewireFacts.WithLessLoaderSpec | index.js:75-78 | The less-loader entry is added exactly when the rule has a postcss-loader. It lands right after the first postcss-loader, and the rule keeps every other field. The nodes on the path to that postcss-loader change only in their child arrays, and every other node below the rule is unchanged. |
| RewireFacts.WithLessLoaderSearch | index.js:75-87 | Adding the less-loader entry adds no match for a loader name the entry's path does not contain. |
| RewireFacts.DerivedRules | index.js:58-87 | When the css rule holds a css-loader and a postcss-loader, all three derived rules exist, and the less rules carry `/\.less$/`. The css-modules rule keeps the css `test`. When, in addition, the css rule neither is nor holds a file-loader and the less-loader path does not contain `/file-loader/`, none of the three is, or holds, a file-loader. |
| RewireFacts.RelocatedUnchanged | index.js:73-82 | When the inserted css-modules rule holds no file-loader, the second splice lands beside it, so the rule cloned at index.js:81 is the inserted value. |
| RewireFacts.ThreeBeforeFileLoader | index.js:73-88 | The three `addBeforeRule` calls succeed. The rules end up right before the file-loader rule, in call order, and the array grows by exactly three. |
| RewireFacts.RewireInsertsBeforeFileLoader | index.js:54-91 | The whole transform returns `config`. Its rule array is the input with the css rule's `exclude` set and the file-loader's array replaced by `c[..i] + [cssModules, less, lessModules] + c[i..]`. |
| RewireFacts.RewireKeepsOtherRules | index.js:54-91 | After the transform, the css rule is still in the tree, changed only in `exclude`. Every other node off the two edited paths is unchanged, possibly shifted three places along. |

## Left out

- `require.resolve("less-loader")` resolves a module path on disk. It becomes the parameter `Settings.lessLoaderPath`.
- The default arguments of `createRewireLess` (index.js:49-52) are not modelled; `Settings` supplies all four values. The defaults depend on the platform's `path.sep`.
- `include`, `exclude` and `test` are `RegExp` objects. They are modelled by their string form, the only form the code compares.
- `cloneDeep` (lodash) is the identity on the value model, because rules are immutable values. What matters is which state gets copied: index.js:81 clones the css-modules rule that index.js:73 put into the tree, as index.js:79 may have changed it. `Rewire.Relocated` reads that rule back from the tree.
- Object identity is modelled only through that tracked position. The code also shares one `lessLoaderOptions` object between both less-loader entries. Nothing mutates that object afterwards, so the sharing has no visible effect and is not modelled.
- The `env` argument of the transform is unused by the code and not modelled.
- The wiring at index.js:94-98 (`rewireLess`, `withLoaderOptions`, `module.exports`) is not modelled.
- `use` and `oneOf` are modelled only as arrays of rule objects.
  - String entries in a `use` array or an array-valued `loader` are not modelled; `LoaderChain` holds only rules. Such an entry behaves like a rule with no fields: `ruleChildren` gives `[]` for it (index.js:4-8), and `test` and `loader` read `undefined` (index.js:30, 33), so neither matcher accepts it.
  - A non-array (string) `use` is not modelled. The JavaScript treats it in one of two ways:
    - when such a node is the source of a search (`findRule(cssModulesRule, …)`, `addAfterRule(lessRule, …)`), it calls `.some` on the string and throws;
    - when the search only passes such a node on the way down, `findIndexAndRules` receives the string, `ruleChildren` yields `[]` for it, and the search moves on to the next sibling.
- `options` is modelled only as an object. A query-string `options` would make `Object.assign` copy characters.
- A `loader` that is neither absent, a string nor an array is not modelled.
- The code's crashes are modelled as `Outcome.Crashed`, naming the missing anchor. No typed error is raised and nothing is rolled back. index.js has no error handling of its own.
- index.js matches the plain substring `/<name>/`: it neither uses the platform's path separator nor treats `@`-scoped package paths specially. It also has no fallback when an anchor is missing. The model follows it in all three.
- RewireFacts.RewireInsertsBeforeFileLoader assumes the css rule's subtree holds no file-loader and the less-loader path does not contain `/file-loader/`. Otherwise a later search can stop inside an inserted rule, and the lemma then says nothing about where the rules land.
- RewireFacts.RewireKeepsOtherRules states nothing about the ancestors of the two edited arrays. `Rules.ReplaceContainerSpec` shows that those ancestors change only in their child arrays.

=== FILE: locator.dfy ===
/** `findIndexAndRules` and `findRule`: a depth-first, pre-order search that
    returns a handle to the array holding the first matching node. */
module Locator {

  import opened Wrappers
  import opened Rules

  /** What the search starts from: an array of rules, or a single node whose
      `ruleChildren` array is searched (the node itself is not tested). */
  datatype Source = List(rules: seq<Rule>) | Single(node: Rule)

  function Roots(src: Source): seq<Rule> {
    match src
    case List(rules) => rules
    case Single(node) => Children(node)
  }

  /** The `rules.some(...)` loop of `findIndexAndRules` from index `i` on: a node
      that matches is reported; otherwise its children are searched before the
      next sibling is tried. */
  function FindFrom(rules: seq<Rule>, m: Rule -> bool, i: nat): Option<Loc>
    decreases rules, |rules| - i
  {
    if i >= |rules| then None
    else if m(rules[i]) then Some(Loc([], i))
    else if !HasChildren(rules[i]) then FindFrom(rules, m, i + 1)
    else match FindFrom(Children(rules[i]), m, 0)
      case Some(l) => Some(Loc([i] + l.path, l.index))
      case None => FindFrom(rules, m, i + 1)
  }

  function Find(rules: seq<Rule>, m: Rule -> bool): Option<Loc> {
    FindFrom(rules, m, 0)
  }

  /** `findIndexAndRules(rulesSource, ruleMatcher)`; `None` is `undefined`. */
  function FindIndexAndRules(src: Source, m: Rule -> bool): Option<Loc> {
    Find(Roots(src), m)
  }

  /** `findRule`: the located node; `None` where the JavaScript throws on
      destructuring `undefined`. */
  function FindRule(src: Source, m: Rule -> bool): (r: Option<Rule>)
    ensures r.Some? <==> FindIndexAndRules(src, m).Some?
    ensures r.Some? ==> m(r.value)
    ensures r.Some? ==> r == NodeAt(Roots(src), Pos(FindIndexAndRules(src, m).value))
  {
    match FindIndexAndRules(src, m)
    case None => None
    case Some(l) =>
      FindSound(Roots(src), m, l);
      Some(ContainerAt(Roots(src), l.path).value[l.index])
  }

  /** The node at `pos` exists and satisfies the matcher. */
  predicate MatchAt(rules: seq<Rule>, m: Rule -> bool, pos: seq<nat>) {
    NodeAt(rules, pos).Some? && m(NodeAt(rules, pos).value)
  }

  /** Pre-order: `p` is visited before `q` when it is a proper prefix of `q`
      (an ancestor), or when it branches off to an earlier sibling. */
  predicate Before(p: seq<nat>, q: seq<nat>)
    decreases |p|
  {
    q != [] && (p == [] || p[0] < q[0] || (p[0] == q[0] && Before(p[1..], q[1..])))
  }

  /** Pre-order is asymmetric, and any two distinct positions are ordered;
      with `BeforeTrans`, it is a strict total order on positions. */
  lemma {:induction false} BeforeTotal(p: seq<nat>, q: seq<nat>)
    ensures !(Before(p, q) && Before(q, p))
    ensures p != q ==> Before(p, q) || Before(q, p)
    decreases |p|
  {
    if p != [] && q != [] && p[0] == q[0] {
      BeforeTotal(p[1..], q[1..]);
      if p != q {
        assert p == [p[0]] + p[1..] && q == [q[0]] + q[1..];
      }
    }
  }

  /** Pre-order is transitive. */
  lemma {:induction false} BeforeTrans(p: seq<nat>, q: seq<nat>, r: seq<nat>)
    requires Before(p, q) && Before(q, r)
    ensures Before(p, r)
    decreases |p|
  {
    if p != [] && p[0] == q[0] && q[0] == r[0] {
      BeforeTrans(p[1..], q[1..], r[1..]);
    }
  }

  function Top(l: Loc): nat {
    if l.path == [] then l.index else l.path[0]
  }

  lemma {:induction false} FindFromSound(rules: seq<Rule>, m: Rule -> bool, i: nat)
    requires FindFrom(rules, m, i).Some?
    ensures ValidLoc(rules, FindFrom(rules, m, i).value)
    ensures i <= Top(FindFrom(rules, m, i).value) < |rules|
    ensures MatchAt(rules, m, Pos(FindFrom(rules, m, i).value))
    decreases rules, |rules| - i
  {
    var l := FindFrom(rules, m, i).value;
    if !m(rules[i]) {
      var sub := if HasChildren(rules[i]) then FindFrom(Children(rules[i]), m, 0) else None;
      if sub.Some? {
        FindFromSound(Children(rules[i]), m, 0);
        assert Pos(l) == [i] + Pos(sub.value);
        assert l.path[1..] == sub.value.path;
      } else {
        FindFromSound(rules, m, i + 1);
      }
    }
  }

  /** Soundness of `findIndexAndRules`: the handle is in range, the node at it
      matches, and the array is the root or the child array of a node of the tree. */
  lemma FindSound(rules: seq<Rule>, m: Rule -> bool, l: Loc)
    requires Find(rules, m) == Some(l)
    ensures ValidLoc(rules, l)
    ensures m(ContainerAt(rules, l.path).value[l.index])
    ensures NodeAt(rules, Pos(l)) == Some(ContainerAt(rules, l.path).value[l.index])
    ensures l.path == [] ==> ContainerAt(rules, l.path).value == rules
    ensures l.path != [] ==>
              NodeAt(rules, l.path).Some? &&
              ContainerAt(rules, l.path).value == Children(NodeAt(rules, l.path).value)
  {
    FindFromSound(rules, m, 0);
    ContainerNode(rules, l.path, l.index);
  }

  lemma {:induction false} FindFromNone(rules: seq<Rule>, m: Rule -> bool, i: nat)
    requires FindFrom(rules, m, i).None?
    ensures forall pos :: pos != [] && pos[0] >= i ==> !MatchAt(rules, m, pos)
    decreases rules, |rules| - i
  {
    if i < |rules| {
      if HasChildren(rules[i]) {
        FindFromNone(Children(rules[i]), m, 0);
      }
      FindFromNone(rules, m, i + 1);
      forall pos | pos != [] && pos[0] >= i
        ensures !MatchAt(rules, m, pos)
      {
        if pos[0] == i && |pos| > 1 {
          assert NodeAt(rules, pos) == NodeAt(Children(rules[i]), pos[1..]);
        }
      }
    }
  }

  /** `findIndexAndRules` returns `undefined` exactly when no node of the tree matches. */
  lemma FindNoneIff(rules: seq<Rule>, m: Rule -> bool)
    ensures Find(rules, m).None? <==> forall pos :: !MatchAt(rules, m, pos)
  {
    if Find(rules, m).None? {
      FindFromNone(rules, m, 0);
      forall pos ensures !MatchAt(rules, m, pos) {
        if pos == [] { assert NodeAt(rules, pos).None?; }
      }
    } else {
      FindFromSound(rules, m, 0);
    }
  }

  lemma {:induction false} FindFromFirst(rules: seq<Rule>, m: Rule -> bool, i: nat)
    requires FindFrom(rules, m, i).Some?
    ensures forall pos :: pos != [] && pos[0] >= i && MatchAt(rules, m, pos) ==>
              !Before(pos, Pos(FindFrom(rules, m, i).value))
    decreases rules, |rules| - i
  {
    var l := FindFrom(rules, m, i).value;
    if !m(rules[i]) {
      var sub := if HasChildren(rules[i]) then FindFrom(Children(rules[i]), m, 0) else None;
      if sub.Some? {
        FindFromFirst(Children(rules[i]), m, 0);
        assert Pos(l) == [i] + Pos(sub.value);
        forall pos | pos != [] && pos[0] >= i && MatchAt(rules, m, pos)
          ensures !Before(pos, Pos(l))
        {
          if pos[0] == i {
            assert |pos| > 1;
            assert NodeAt(rules, pos) == NodeAt(Children(rules[i]), pos[1..]);
            assert !Before(pos[1..], Pos(sub.value));
          }
        }
      } else {
        NoMatchUnder(rules, m, i);
        FindFromFirst(rules, m, i + 1);
        FindFromSound(rules, m, i + 1);
      }
    }
  }

  /** A node that does not match, with no match below it, gives no match at
      any position through it. */
  lemma NoMatchUnder(rules: seq<Rule>, m: Rule -> bool, i: nat)
    requires i < |rules| && !m(rules[i])
    requires HasChildren(rules[i]) ==> FindFrom(Children(rules[i]), m, 0).None?
    ensures forall pos :: pos != [] && pos[0] == i ==> !MatchAt(rules, m, pos)
  {
    if HasChildren(rules[i]) {
      FindFromNone(Children(rules[i]), m, 0);
    }
    forall pos | pos != [] && pos[0] == i
      ensures !MatchAt(rules, m, pos)
    {
      if |pos| > 1 {
        assert NodeAt(rules, pos) == NodeAt(Children(rules[i]), pos[1..]);
      }
    }
  }

  /** `findIndexAndRules` returns the first match in pre-order: no matching node
      is visited before the returned one. */
  lemma FindFirst(rules: seq<Rule>, m: Rule -> bool, l: Loc, pos: seq<nat>)
    requires Find(rules, m) == Some(l)
    requires MatchAt(rules, m, pos)
    ensures !Before(pos, Pos(l))
  {
    FindFromFirst(rules, m, 0);
  }

  /** The search is determined by the first match in pre-order: a matching node
      with no matching node before it is the one returned. */
  lemma FindUnique(rules: seq<Rule>, m: Rule -> bool, pos: seq<nat>)
    requires MatchAt(rules, m, pos)
    requires forall p :: MatchAt(rules, m, p) ==> !Before(p, pos)
    ensures Find(rules, m).Some? && Pos(Find(rules, m).value) == pos
  {
    FindNoneIff(rules, m);
    var l := Find(rules, m).value;
    FindFromSound(rules, m, 0);
    FindFirst(rules, m, l, pos);
    BeforeTotal(pos, Pos(l));
  }

}

=== FILE: matchers.dfy ===
/** `cssRuleMatcher` and `createLoaderMatcher`: the predicates the transform
    passes to the locator. */
module Matchers {

  import opened Wrappers
  import opened Rules

  /** `String(/\.css$/)`. */
  const CssPattern: Pattern := "/\\.css$/"

  /** `String(/\.less$/)`. */
  const LessPattern: Pattern := "/\\.less$/"

  /** `sub` occurs in `s` starting at index `i`. */
  predicate OccursAt(s: string, sub: string, i: int) {
    0 <= i && i + |sub| <= |s| && s[i..i + |sub|] == sub
  }

  /** `s.indexOf(sub, i)`: the first index from `i` on at which `sub` occurs, or -1. */
  function IndexFrom(s: string, sub: string, i: nat): (r: int)
    ensures r == -1 || (i <= r && OccursAt(s, sub, r))
    ensures r != -1 ==> forall j :: i <= j < r ==> !OccursAt(s, sub, j)
    ensures r == -1 ==> forall j :: i <= j ==> !OccursAt(s, sub, j)
    decreases |s| - i
  {
    if i + |sub| > |s| then -1
    else if s[i..i + |sub|] == sub then i
    else IndexFrom(s, sub, i + 1)
  }

  /** `s.indexOf(sub)`. */
  function IndexOf(s: string, sub: string): int {
    IndexFrom(s, sub, 0)
  }

  /** `cssRuleMatcher`: `rule.test` is present (and truthy) and its string form
      is that of `/\.css$/`. */
  predicate IsCssRule(r: Rule) {
    match r.test
    case None => false
    case Some(t) => t != "" && t == CssPattern
  }

  /** The rule matched by `createLoaderMatcher(name)`: `rule.loader` is truthy and
      `rule.loader.indexOf("/" + name + "/")` is not -1. On an array-valued
      `loader`, `Array.prototype.indexOf` looks for an element equal to the
      string; the elements are loader objects, so it yields -1. */
  predicate LoaderMatches(name: string, r: Rule) {
    match r.loader
    case NoLoader => false
    case LoaderPath(p) => p != "" && IndexOf(p, "/" + name + "/") != -1
    case LoaderChain(_) => false
  }

  /** `createLoaderMatcher(name)`. */
  function LoaderMatcher(name: string): Rule -> bool {
    r => LoaderMatches(name, r)
  }

  const CssLoader: Rule -> bool := LoaderMatcher("css-loader")
  const PostcssLoader: Rule -> bool := LoaderMatcher("postcss-loader")
  const FileLoader: Rule -> bool := LoaderMatcher("file-loader")

  /** The css matcher holds exactly when the pattern's string form is that of `/\.css$/`. */
  lemma CssRuleMatcherSpec(r: Rule)
    ensures IsCssRule(r) <==> r.test == Some(CssPattern)
  {
  }

  /** A loader matcher holds exactly when `loader` is a single path in which
      `/<name>/` occurs. */
  lemma LoaderMatcherSpec(name: string, r: Rule)
    ensures LoaderMatcher(name)(r) <==>
              r.loader.LoaderPath? && exists i :: OccursAt(r.loader.path, "/" + name + "/", i)
  {
    if r.loader.LoaderPath? && exists i :: OccursAt(r.loader.path, "/" + name + "/", i) {
      assert r.loader.path != "";
    }
  }

  /** `p[i+1..j]` is a whole `/`-delimited segment of the path `p`: slashes at
      `i` and `j` and none in between. */
  predicate SegmentAt(p: string, i: int, j: int) {
    0 <= i < j < |p| && p[i] == '/' && p[j] == '/' && forall k :: i < k < j ==> p[k] != '/'
  }

  /** For a loader name without `/`, a loader matcher holds exactly when some
      `/`-delimited segment of the single loader path is the name itself; a
      directory that merely contains the name is not matched. */
  lemma LoaderMatchesSegment(name: string, r: Rule)
    requires forall k :: 0 <= k < |name| ==> name[k] != '/'
    ensures LoaderMatches(name, r) <==>
              r.loader.LoaderPath? &&
              exists i, j :: SegmentAt(r.loader.path, i, j) && r.loader.path[i + 1..j] == name
  {
    LoaderMatcherSpec(name, r);
    if r.loader.LoaderPath? {
      var p := r.loader.path;
      if i :| OccursAt(p, "/" + name + "/", i) {
        OccurrenceIsSegment(p, name, i);
      }
      if i, j :| SegmentAt(p, i, j) && p[i + 1..j] == name {
        SegmentIsOccurrence(p, name, i, j);
      }
    }
  }

  /** An occurrence of `/<name>/` is a whole segment when `name` has no `/`. */
  lemma OccurrenceIsSegment(p: string, name: string, i: int)
    requires forall k :: 0 <= k < |name| ==> name[k] != '/'
    requires OccursAt(p, "/" + name + "/", i)
    ensures SegmentAt(p, i, i + |name| + 1) && p[i + 1..i + |name| + 1] == name
  {
    var sub := "/" + name + "/";
    var j := i + |name| + 1;
    assert p[i..i + |sub|] == sub;
    assert p[i] == sub[0] && p[j] == sub[|sub| - 1];
    forall k | i < k < j
      ensures p[k] != '/'
    {
      assert p[k] == p[i..i + |sub|][k - i] == sub[k - i] == name[k - i - 1];
    }
    forall k | 0 <= k < |name|
      ensures p[i + 1..j][k] == name[k]
    {
      assert p[i + 1 + k] == p[i..i + |sub|][k + 1] == sub[k + 1];
    }
  }

  /** A segment equal to `name` is an occurrence of `/<name>/`. */
  lemma SegmentIsOccurrence(p: string, name: string, i: int, j: int)
    requires SegmentAt(p, i, j) && p[i + 1..j] == name
    ensures OccursAt(p, "/" + name + "/", i)
  {
    assert p[i..j + 1] == [p[i]] + p[i + 1..j] + [p[j]];
  }

  lemma MismatchAt(s: string, sub: string, i: nat, d: nat)
    requires d < |sub| && (i + |sub| <= |s| ==> s[i + d] != sub[d])
    ensures !OccursAt(s, sub, i)
  {
    if i + |sub| <= |s| {
      assert s[i..i + |sub|][d] == s[i + d];
    }
  }

  /** The match is on `/`-delimited segments: a loader directory merely ending in
      the name is not matched. */
  lemma LoaderMatcherRejectsSuffix()
    ensures !LoaderMatches("css-loader", Rule(None, None, None, LoaderPath("/foo-css-loader/"), Absent, Absent, None))
  {
    var bad: string := "/foo-css-loader/";
    var sub: string := "/css-loader/";
    assert "/" + "css-loader" + "/" == sub;
    NoOccurrenceInSuffix(bad, sub);
  }

  /** The five places where a 12-character `sub` could start in a 16-character
      string are ruled out by one differing character each. */
  lemma NoOccurrenceInSuffix(bad: string, sub: string)
    requires |bad| == 16 && |sub| == 12
    requires bad[1] != sub[1] && bad[1] != sub[0] && bad[2] != sub[0] && bad[3] != sub[0] && bad[4] != sub[0]
    ensures forall j :: !OccursAt(bad, sub, j)
  {
    MismatchAt(bad, sub, 0, 1);
    MismatchAt(bad, sub, 1, 0);
    MismatchAt(bad, sub, 2, 0);
    MismatchAt(bad, sub, 3, 0);
    MismatchAt(bad, sub, 4, 0);
  }

  /** The exact `/<name>/` segment is matched. */
  lemma LoaderMatcherAcceptsSegment()
    ensures LoaderMatches("css-loader", Rule(None, None, None, LoaderPath("/m/css-loader/i"), Absent, Absent, None))
  {
    var good: string := "/m/css-loader/i";
    var sub: string := "/css-loader/";
    assert "/" + "css-loader" + "/" == sub;
    assert good[2..14] == sub;
    assert OccursAt(good, sub, 2);
  }

  /** What the matchers look at: `test` for the css matcher, a single-path
      `loader` for the loader matchers; never the child arrays, `include`,
      `exclude` or `options`. */
  lemma MatchersLookAt(name: string, a: Rule, b: Rule)
    ensures a.test == b.test ==> IsCssRule(a) == IsCssRule(b)
    ensures (a.loader == b.loader || (a.loader.LoaderChain? && b.loader.LoaderChain?)) ==>
              LoaderMatches(name, a) == LoaderMatches(name, b)
    ensures a.loader.LoaderChain? ==> !LoaderMatches(name, a)
  {
  }

}

=== FILE: rewire.dfy ===
/** The transform returned by `createRewireLess`: it finds the css rule, sets its
    `exclude`, derives a css-modules rule, a less rule and a less-modules rule
    from it, and inserts the three before the file-loader rule. */
module Rewire {

  import opened Wrappers
  import opened Rules
  import opened Locator
  import opened Matchers
  import opened Splice

  /** The arguments of `createRewireLess`, with `include` and `exclude` by their
      string forms, and the path `require.resolve("less-loader")` yields. */
  datatype Settings = Settings(
    localIdentName: string,
    lessLoaderOptions: Options,
    includePattern: Pattern,
    excludePattern: Pattern,
    lessLoaderPath: string)

  /** The rule whose absence makes the JavaScript throw a `TypeError`. */
  datatype Anchor = CssRuleAnchor | CssLoaderAnchor | FileLoaderAnchor | PostcssLoaderAnchor

  /** `Done` when the transform returns `config`; `Crashed` when it throws,
      leaving whatever it had already changed in place. */
  datatype Outcome = Done | Crashed(missing: Anchor)

  /** `{ loader: require.resolve("less-loader"), options: lessLoaderOptions }`. */
  function LessLoaderEntry(s: Settings): Rule {
    Rule(None, None, None, LoaderPath(s.lessLoaderPath), Absent, Absent, Some(s.lessLoaderOptions))
  }

  /** `Object.assign({ modules: true, localIdentName }, options)`: the defaults,
      overridden by every key the loader already has. */
  function MergeCssModulesOptions(existing: Option<Options>, localIdentName: string): (r: Options)
    ensures var given := if existing.Some? then existing.value else map[];
            r.Keys == given.Keys + {"modules", "localIdentName"} &&
            (forall k :: k in given ==> r[k] == given[k]) &&
            ("modules" !in given ==> r["modules"] == Flag(true)) &&
            ("localIdentName" !in given ==> r["localIdentName"] == Text(localIdentName))
  {
    var defaults := map["modules" := Flag(true), "localIdentName" := Text(localIdentName)];
    match existing
    case None => defaults
    case Some(o) => defaults + o
  }

  /** Lines 60-72: a copy of the css rule scoped by `include`/`exclude`, whose
      css-loader gets the merged options; `None` where `findRule` throws. */
  function CssModulesRule(cssRule: Rule, s: Settings): Option<Rule> {
    var clone := cssRule.(incl := Some(s.includePattern), excl := Some(s.excludePattern));
    match FindIndexAndRules(Single(clone), CssLoader)
    case None => None
    case Some(l) =>
      FindSound(Children(clone), CssLoader, l);
      var cssLoader := FindRule(Single(clone), CssLoader).value;
      var merged := cssLoader.(options := Some(MergeCssModulesOptions(cssLoader.options, s.localIdentName)));
      Some(WithChildren(clone, SetAt(Children(clone), l, merged)))
  }

  /** `addAfterRule(rule, postcssLoaderMatcher, lessLoaderEntry)` on a rule the
      transform holds; `None` where it throws. */
  function WithLessLoader(r: Rule, s: Settings): Option<Rule> {
    match AddAfterRule(Single(r), PostcssLoader, LessLoaderEntry(s))
    case None => None
    case Some(src) => Some(src.node)
  }

  /** `addBeforeRule(config.module.rules, fileLoaderMatcher, value)` on the rule array. */
  function AddBeforeFileLoader(rules: seq<Rule>, v: Rule): Option<seq<Rule>> {
    match AddBeforeRule(List(rules), FileLoader, v)
    case None => None
    case Some(src) => Some(Roots(src))
  }

  /** `addBeforeRule(config.module.rules, fileLoaderMatcher, value)` with the
      file-loader rule at `l` splices `value` in right before it. */
  lemma AddBeforeFileLoaderAt(rules: seq<Rule>, v: Rule, l: Loc)
    requires Find(rules, FileLoader) == Some(l)
    ensures ValidLoc(rules, l)
    ensures AddBeforeFileLoader(rules, v) == Some(InsertAt(rules, l.path, l.index, v))
  {
    FindSound(rules, FileLoader, l);
    assert AddBeforeRule(List(rules), FileLoader, v) == Some(List(InsertAt(rules, l.path, l.index, v)));
  }

  /** The rule that `addBeforeRule(rules, fileLoaderMatcher, v)` put into the
      tree, looked up again after a second `addBeforeRule(.., w)`: the object
      the JavaScript still refers to, which the second splice has changed when
      it went into that rule's own subtree. */
  function Relocated(rules: seq<Rule>, v: Rule, w: Rule): (r: Rule)
    requires AddBeforeFileLoader(rules, v).Some?
    requires AddBeforeFileLoader(AddBeforeFileLoader(rules, v).value, w).Some?
    ensures SameExceptChildren(v, r)
    ensures var l2 := Find(rules, FileLoader).value;
            var l3 := Find(AddBeforeFileLoader(rules, v).value, FileLoader).value;
            !(Pos(l2) <= l3.path) ==> r == v
  {
    var l2 := Find(rules, FileLoader).value;
    var rules2 := AddBeforeFileLoader(rules, v).value;
    var l3 := Find(rules2, FileLoader).value;
    RelocatedAt(rules, v, w);
    NodeAt(AddBeforeFileLoader(rules2, w).value, Shifted(Pos(l2), l3.path, l3.index, 1)).value
  }

  /** The position `Relocated` reads holds a node. */
  lemma RelocatedAt(rules: seq<Rule>, v: Rule, w: Rule)
    requires AddBeforeFileLoader(rules, v).Some?
    requires AddBeforeFileLoader(AddBeforeFileLoader(rules, v).value, w).Some?
    ensures var l2 := Find(rules, FileLoader).value;
            var rules2 := AddBeforeFileLoader(rules, v).value;
            var l3 := Find(rules2, FileLoader).value;
            var n := NodeAt(AddBeforeFileLoader(rules2, w).value, Shifted(Pos(l2), l3.path, l3.index, 1));
            n.Some? && SameExceptChildren(v, n.value) && (!(Pos(l2) <= l3.path) ==> n.value == v)
  {
    var l2 := Find(rules, FileLoader).value;
    AddBeforeFileLoaderAt(rules, v, l2);
    var rules2 := AddBeforeFileLoader(rules, v).value;
    var c := ContainerAt(rules, l2.path).value;
    ReplaceContainerSpec(rules, l2.path, Insert(c, l2.index, v));
    ContainerNode(rules2, l2.path, l2.index);
    assert NodeAt(rules2, Pos(l2)) == Some(v);
    var l3 := Find(rules2, FileLoader).value;
    AddBeforeFileLoaderAt(rules2, w, l3);
    InsertAtMoves(rules2, l3.path, l3.index, w, Pos(l2));
  }

  /** The transform, step by step: the outcome and the rule array it leaves. */
  function RewireLess(rules: seq<Rule>, s: Settings): (Outcome, seq<Rule>) {
    match FindIndexAndRules(List(rules), IsCssRule)
    case None => (Crashed(CssRuleAnchor), rules)
    case Some(cl) =>
      FindSound(rules, IsCssRule, cl);
      RewireFound(rules, cl, s)
  }

  /** The transform once the css rule has been found at `cl`. */
  function RewireFound(rules: seq<Rule>, cl: Loc, s: Settings): (r: (Outcome, seq<Rule>))
    requires FindIndexAndRules(List(rules), IsCssRule) == Some(cl) && ValidLoc(rules, cl)
    ensures r.0 != Crashed(CssRuleAnchor)
  {
    var cssRule := FindRule(List(rules), IsCssRule).value.(excl := Some(s.includePattern));
    var rules1 := SetAt(rules, cl, cssRule);
    var lessRule := cssRule.(test := Some(LessPattern));
    match CssModulesRule(cssRule, s)
    case None => (Crashed(CssLoaderAnchor), rules1)
    case Some(cssModulesRule) =>
      match AddBeforeFileLoader(rules1, cssModulesRule)
      case None => (Crashed(FileLoaderAnchor), rules1)
      case Some(rules2) =>
        match WithLessLoader(lessRule, s)
        case None => (Crashed(PostcssLoaderAnchor), rules2)
        case Some(lessRule') =>
          match AddBeforeFileLoader(rules2, lessRule')
          case None => (Crashed(FileLoaderAnchor), rules2)
          case Some(rules3) =>
            // `cloneDeep(cssModulesRule)` copies the rule as it now is in the tree.
            var cssModulesNow := Relocated(rules1, cssModulesRule, lessRule');
            match WithLessLoader(cssModulesNow.(test := lessRule'.test), s)
            case None => (Crashed(PostcssLoaderAnchor), rules3)
            case Some(lessModulesRule) =>
              match AddBeforeFileLoader(rules3, lessModulesRule)
              case None => (Crashed(FileLoaderAnchor), rules3)
              case Some(rules4) => (Done, rules4)
  }

  /** The webpack configuration object the transform updates in place. */
  class Config {

    /** `config.module.rules`. */
    var rules: seq<Rule>

    constructor (rules: seq<Rule>)
      ensures this.rules == rules
    {
      this.rules := rules;
    }

    /** An assignment to a field of the located rule (`cssRule.exclude = include`):
        the rule is replaced by its updated value wherever it sits. */
    method UpdateRule(l: Loc, n: Rule)
      requires ValidLoc(rules, l)
      modifies this
      ensures rules == SetAt(old(rules), l, n)
    {
      rules := SetAt(rules, l, n);
    }

    /** `addBeforeRule(config.module.rules, fileLoaderMatcher, value)`; `found`
        is false where the JavaScript throws, and then nothing has changed. */
    method AddBeforeFileLoaderRule(v: Rule) returns (found: bool)
      modifies this
      ensures found == Find(old(rules), FileLoader).Some?
      ensures rules == if found then AddBeforeFileLoader(old(rules), v).value else old(rules)
    {
      var r := AddBeforeFileLoader(rules, v);
      found := r.Some?;
      if found {
        rules := r.value;
      }
    }
  }

  /** The closure returned by `createRewireLess`, run on `config`. */
  method Transform(config: Config, s: Settings) returns (outcome: Outcome)
    modifies config
    ensures (outcome, config.rules) == RewireLess(old(config.rules), s)
  {
    ghost var rules0 := config.rules;
    var found := FindRule(List(config.rules), IsCssRule);
    if found.None? {
      return Crashed(CssRuleAnchor);
    }
    var cl := FindIndexAndRules(List(config.rules), IsCssRule).value;
    FindSound(config.rules, IsCssRule, cl);
    assert RewireLess(rules0, s) == RewireFound(rules0, cl, s);
    var cssRule := found.value.(excl := Some(s.includePattern));
    config.UpdateRule(cl, cssRule);
    ghost var rules1 := config.rules;

    var lessRule := cssRule.(test := Some(LessPattern));
    var cssModulesRule := CssModulesRule(cssRule, s);
    if cssModulesRule.None? {
      return Crashed(CssLoaderAnchor);
    }
    var fileLoaderAt := FindIndexAndRules(List(config.rules), FileLoader);
    var added := config.AddBeforeFileLoaderRule(cssModulesRule.value);
    if !added {
      return Crashed(FileLoaderAnchor);
    }

    var lessWithLoader := WithLessLoader(lessRule, s);
    if lessWithLoader.None? {
      return Crashed(PostcssLoaderAnchor);
    }
    // The css-modules rule now sits where the file-loader was found.
    var cssModulesAt := Pos(fileLoaderAt.value);
    fileLoaderAt := FindIndexAndRules(List(config.rules), FileLoader);
    added := config.AddBeforeFileLoaderRule(lessWithLoader.value);
    if !added {
      return Crashed(FileLoaderAnchor);
    }

    // `cloneDeep(cssModulesRule)` copies that rule as it now is in the tree.
    cssModulesAt := Shifted(cssModulesAt, fileLoaderAt.value.path, fileLoaderAt.value.index, 1);
    var cssModulesNow := NodeAt(config.rules, cssModulesAt);
    ghost var relocated := Relocated(rules1, cssModulesRule.value, lessWithLoader.value);
    assert cssModulesNow == Some(relocated) by {
      RelocatedAt(rules1, cssModulesRule.value, lessWithLoader.value);
    }
    var lessModulesRule := cssModulesNow.value.(test := lessWithLoader.value.test);
    var lessModulesWithLoader := WithLessLoader(lessModulesRule, s);
    if lessModulesWithLoader.None? {
      return Crashed(PostcssLoaderAnchor);
    }
    added := config.AddBeforeFileLoaderRule(lessModulesWithLoader.value);
    if !added {
      return Crashed(FileLoaderAnchor);
    }
    return Done;
  }

}

=== FILE: rewire_facts.dfy ===
/** What the transform of `createRewireLess` guarantees: the rules it derives,
    where it puts them, and when it throws. */
module RewireFacts {

  import opened Wrappers
  import opened Rules
  import opened Locator
  import opened Matchers
  import opened Splice
  import opened Rewire

  lemma LoaderMatcherIgnoresChildren(name: string)
    ensures IgnoresChildren(LoaderMatcher(name))
  {
    forall r, cs ensures LoaderMatcher(name)(WithChildren(r, cs)) == LoaderMatcher(name)(r) {
      MatchersLookAt(name, WithChildren(r, cs), r);
    }
  }

  /** The transform throws at its first step exactly when no rule of the tree
      has the `/\.css$/` test, and then the rules are untouched. */
  lemma RewireWithoutCssRule(rules: seq<Rule>, s: Settings)
    ensures RewireLess(rules, s).0 == Crashed(CssRuleAnchor) <==> forall pos :: !MatchAt(rules, IsCssRule, pos)
    ensures RewireLess(rules, s).0 == Crashed(CssRuleAnchor) ==> RewireLess(rules, s).1 == rules
  {
    FindNoneIff(rules, IsCssRule);
    if Find(rules, IsCssRule).Some? {
      FindSound(rules, IsCssRule, Find(rules, IsCssRule).value);
    }
  }

  /** Without a css-loader in the css rule, `findRule(cssModulesRule, cssLoaderMatcher)`
      throws; the css rule's new `exclude` has already been written. */
  lemma RewireWithoutCssLoader(rules: seq<Rule>, s: Settings, cl: Loc, css0: Rule)
    requires Find(rules, IsCssRule) == Some(cl) && NodeAt(rules, Pos(cl)) == Some(css0)
    requires Find(Children(css0), CssLoader).None?
    ensures ValidLoc(rules, cl)
    ensures RewireLess(rules, s) == (Crashed(CssLoaderAnchor), SetAt(rules, cl, css0.(excl := Some(s.includePattern))))
  {
    FindSound(rules, IsCssRule, cl);
    var css := css0.(excl := Some(s.includePattern));
    assert Children(css) == Children(css0);
    CssModulesRuleSpec(css, s);
  }

  /** Without a file-loader rule, the first `addBeforeRule` throws; again only
      the css rule's `exclude` has changed. */
  lemma RewireWithoutFileLoader(rules: seq<Rule>, s: Settings, cl: Loc, css0: Rule)
    requires Find(rules, IsCssRule) == Some(cl) && NodeAt(rules, Pos(cl)) == Some(css0)
    requires Find(Children(css0), CssLoader).Some?
    requires Find(rules, FileLoader).None?
    ensures ValidLoc(rules, cl)
    ensures RewireLess(rules, s) == (Crashed(FileLoaderAnchor), SetAt(rules, cl, css0.(excl := Some(s.includePattern))))
  {
    FindSound(rules, IsCssRule, cl);
    var css := css0.(excl := Some(s.includePattern));
    assert Children(css) == Children(css0);
    CssModulesRuleSpec(css, s);
    var rules1 := SetAt(rules, cl, css);
    assert Find(rules1, FileLoader).None? by {
      LoaderMatcherIgnoresChildren("file-loader");
      MatchersLookAt("file-loader", css, css0);
      FindAfterSet(rules, FileLoader, cl, css);
    }
    AddBeforeRuleSpec(List(rules1), FileLoader, CssModulesRule(css, s).value);
  }

  /** Without a postcss-loader in the css rule, `addAfterRule(lessRule, ...)`
      throws after the css-modules rule has already been inserted: the changes
      made so far are not undone. */
  lemma RewireWithoutPostcssLoader(rules: seq<Rule>, s: Settings, cl: Loc, css0: Rule)
    requires Find(rules, IsCssRule) == Some(cl) && NodeAt(rules, Pos(cl)) == Some(css0)
    requires Find(Children(css0), CssLoader).Some?
    requires Find(Children(css0), PostcssLoader).None?
    requires Find(rules, FileLoader).Some?
    ensures var css := css0.(excl := Some(s.includePattern));
            ValidLoc(rules, cl) && CssModulesRule(css, s).Some? &&
            AddBeforeFileLoader(SetAt(rules, cl, css), CssModulesRule(css, s).value).Some? &&
            RewireLess(rules, s) ==
              (Crashed(PostcssLoaderAnchor), AddBeforeFileLoader(SetAt(rules, cl, css), CssModulesRule(css, s).value).value)
  {
    FindSound(rules, IsCssRule, cl);
    var css := css0.(excl := Some(s.includePattern));
    assert Children(css) == Children(css0);
    CssModulesRuleSpec(css, s);
    var rules1 := SetAt(rules, cl, css);
    assert Find(rules1, FileLoader) == Find(rules, FileLoader) by {
      LoaderMatcherIgnoresChildren("file-loader");
      MatchersLookAt("file-loader", css, css0);
      FindAfterSet(rules, FileLoader, cl, css);
    }
    AddBeforeRuleSpec(List(rules1), FileLoader, CssModulesRule(css, s).value);
    var lessRule := css.(test := Some(LessPattern));
    assert Children(lessRule) == Children(css0);
    WithLessLoaderSpec(lessRule, s);
  }

  /** The css-modules rule: present exactly when the css rule has a css-loader;
      it carries the `include`/`exclude` scoping, keeps the css rule's `test`,
      loader and options, and differs from it below only in the first
      css-loader, whose options become the defaults overridden by its own:
      nodes off the css-loader's path are unchanged, and the nodes on it
      change only in their child array. */
  lemma CssModulesRuleSpec(css: Rule, s: Settings)
    ensures CssModulesRule(css, s).Some? <==> Find(Children(css), CssLoader).Some?
    ensures CssModulesRule(css, s).Some? ==>
              var c' := CssModulesRule(css, s).value;
              var l := Find(Children(css), CssLoader).value;
              c'.test == css.test && c'.incl == Some(s.includePattern) && c'.excl == Some(s.excludePattern) &&
              SameExceptChildren(css.(incl := c'.incl, excl := c'.excl), c') &&
              ValidLoc(Children(css), l) && ContainerAt(Children(c'), l.path).Some? &&
              var c := ContainerAt(Children(css), l.path).value;
              var n := c[l.index];
              CssLoader(n) &&
              ContainerAt(Children(c'), l.path).value ==
                c[l.index := n.(options := Some(MergeCssModulesOptions(n.options, s.localIdentName)))] &&
              (forall pos :: !(l.path <= pos) && !(pos <= l.path) ==> NodeAt(Children(c'), pos) == NodeAt(Children(css), pos)) &&
              (forall pos :: pos != [] && pos <= l.path ==>
                 NodeAt(Children(css), pos).Some? && NodeAt(Children(c'), pos).Some? &&
                 SameExceptChildren(NodeAt(Children(css), pos).value, NodeAt(Children(c'), pos).value))
  {
    var clone := css.(incl := Some(s.includePattern), excl := Some(s.excludePattern));
    assert Children(clone) == Children(css);
    if Find(Children(css), CssLoader).Some? {
      var l := Find(Children(css), CssLoader).value;
      FindSound(Children(css), CssLoader, l);
      var c := ContainerAt(Children(css), l.path).value;
      var n := c[l.index];
      var merged := n.(options := Some(MergeCssModulesOptions(n.options, s.localIdentName)));
      var inner := SetAt(Children(clone), l, merged);
      ReplaceContainerSpec(Children(clone), l.path, c[l.index := merged]);
      ChildrenRoundTrip(clone, inner);
    }
  }

  /** The css-modules rule looks to a loader matcher just like the css rule it
      was derived from: the loaders were not touched, only options. */
  lemma CssModulesRuleSearch(css: Rule, s: Settings, name: string)
    requires CssModulesRule(css, s).Some?
    ensures LoaderMatches(name, CssModulesRule(css, s).value) == LoaderMatches(name, css)
    ensures Find(Children(CssModulesRule(css, s).value), LoaderMatcher(name)) ==
            Find(Children(css), LoaderMatcher(name))
  {
    var clone := css.(incl := Some(s.includePattern), excl := Some(s.excludePattern));
    assert Children(clone) == Children(css);
    var l := Find(Children(css), CssLoader).value;
    FindSound(Children(css), CssLoader, l);
    var n := ContainerAt(Children(css), l.path).value[l.index];
    var merged := n.(options := Some(MergeCssModulesOptions(n.options, s.localIdentName)));
    var inner := SetAt(Children(clone), l, merged);
    ChildrenRoundTrip(clone, inner);
    LoaderMatcherIgnoresChildren(name);
    MatchersLookAt(name, merged, n);
    MatchersLookAt(name, WithChildren(clone, inner), clone);
    FindAfterSet(Children(clone), LoaderMatcher(name), l, merged);
  }

  /** The less-loader entry: present exactly when the rule has a postcss-loader;
      the rule keeps every field but its child array, and in the array holding
      the first postcss-loader the entry comes right after it; the other
      nodes below the rule are unchanged, apart from the child arrays on the
      path to that array. */
  lemma WithLessLoaderSpec(r: Rule, s: Settings)
    ensures WithLessLoader(r, s).Some? <==> Find(Children(r), PostcssLoader).Some?
    ensures WithLessLoader(r, s).Some? ==>
              var r' := WithLessLoader(r, s).value;
              var l := Find(Children(r), PostcssLoader).value;
              SameExceptChildren(r, r') && r'.test == r.test &&
              ValidLoc(Children(r), l) && ContainerAt(Children(r'), l.path).Some? &&
              var c := ContainerAt(Children(r), l.path).value;
              var c' := ContainerAt(Children(r'), l.path).value;
              PostcssLoader(c[l.index]) && c' == c[..l.index + 1] + [LessLoaderEntry(s)] + c[l.index + 1..] &&
              (forall pos :: !(l.path <= pos) && !(pos <= l.path) ==> NodeAt(Children(r'), pos) == NodeAt(Children(r), pos)) &&
              (forall pos :: pos != [] && pos <= l.path ==>
                 NodeAt(Children(r), pos).Some? && NodeAt(Children(r'), pos).Some? &&
                 SameExceptChildren(NodeAt(Children(r), pos).value, NodeAt(Children(r'), pos).value))
  {
    if Find(Children(r), PostcssLoader).Some? {
      var l := Find(Children(r), PostcssLoader).value;
      WithLessLoaderAt(r, s, l);
      var c := ContainerAt(Children(r), l.path).value;
      var inner := InsertAt(Children(r), l.path, l.index + 1, LessLoaderEntry(s));
      ChildrenRoundTrip(r, inner);
      ReplaceContainerSpec(Children(r), l.path, Insert(c, l.index + 1, LessLoaderEntry(s)));
      FindSound(Children(r), PostcssLoader, l);
    } else {
      assert FindIndexAndRules(Single(r), PostcssLoader).None?;
    }
  }

  /** `addAfterRule(rule, postcssLoaderMatcher, entry)` on a rule with a
      postcss-loader at `l` splices the entry in right after it. */
  lemma WithLessLoaderAt(r: Rule, s: Settings, l: Loc)
    requires Find(Children(r), PostcssLoader) == Some(l)
    ensures ValidLoc(Children(r), l) && HasChildren(r)
    ensures WithLessLoader(r, s) == Some(WithChildren(r, InsertAt(Children(r), l.path, l.index + 1, LessLoaderEntry(s))))
  {
    FindSound(Children(r), PostcssLoader, l);
    assert Pos(l)[0] < |Children(r)|;
    var e := LessLoaderEntry(s);
    assert FindIndexAndRules(Single(r), PostcssLoader) == Some(l);
    var src := SpliceInto(Single(r), l.path, l.index + 1, e);
    assert src == Single(WithChildren(r, InsertAt(Children(r), l.path, l.index + 1, e)));
    assert AddAfterRule(Single(r), PostcssLoader, e) == Some(src);
  }

  /** Adding the less-loader entry adds no match for a loader name the entry's
      path does not contain. */
  lemma WithLessLoaderSearch(r: Rule, s: Settings, name: string)
    requires WithLessLoader(r, s).Some?
    requires !LoaderMatches(name, LessLoaderEntry(s))
    requires Find(Children(r), LoaderMatcher(name)).None?
    ensures LoaderMatches(name, WithLessLoader(r, s).value) == LoaderMatches(name, r)
    ensures Find(Children(WithLessLoader(r, s).value), LoaderMatcher(name)).None?
  {
    var e := LessLoaderEntry(s);
    var l := Find(Children(r), PostcssLoader).value;
    FindSound(Children(r), PostcssLoader, l);
    WithLessLoaderAt(r, s, l);
    var inner := InsertAt(Children(r), l.path, l.index + 1, e);
    ChildrenRoundTrip(r, inner);
    MatchersLookAt(name, WithChildren(r, inner), r);
    LoaderMatcherIgnoresChildren(name);
    assert Children(e) == [];
    FindAfterInsertNone(Children(r), LoaderMatcher(name), l.path, l.index + 1, e);
  }

  /** Three successive `addBeforeRule` calls: applied at the first match, a
      splice of a rule in whose subtree nothing matches leaves that match one
      index further on, so the three rules end up side by side, in call order,
      right before it. */
  lemma {:induction false} ThreeInsertsBefore(rules: seq<Rule>, m: Rule -> bool, l: Loc, a: Rule, b: Rule, d: Rule)
    requires Find(rules, m) == Some(l)
    requires IgnoresChildren(m)
    requires !m(a) && Find(Children(a), m).None?
    requires !m(b) && Find(Children(b), m).None?
    ensures ValidLoc(rules, l)
    ensures var rules2 := InsertAt(rules, l.path, l.index, a);
            Find(rules2, m) == Some(Loc(l.path, l.index + 1)) &&
            ContainerAt(rules2, l.path).Some? && l.index + 1 <= |ContainerAt(rules2, l.path).value| &&
            var rules3 := InsertAt(rules2, l.path, l.index + 1, b);
            Find(rules3, m) == Some(Loc(l.path, l.index + 2)) &&
            ContainerAt(rules3, l.path).Some? && l.index + 2 <= |ContainerAt(rules3, l.path).value| &&
            var c := ContainerAt(rules, l.path).value;
            InsertAt(rules3, l.path, l.index + 2, d) ==
              ReplaceContainer(rules, l.path, c[..l.index] + [a, b, d] + c[l.index..])
  {
    FindSound(rules, m, l);
    var k := l.index;
    var c := ContainerAt(rules, l.path).value;
    FindAfterInsertBefore(rules, m, l.path, k, a);
    var c2 := Insert(c, k, a);
    var rules2 := InsertAt(rules, l.path, k, a);
    ReplaceContainerSpec(rules, l.path, c2);
    FindAfterInsertBefore(rules2, m, l.path, k + 1, b);
    var c3 := Insert(c2, k + 1, b);
    var rules3 := InsertAt(rules2, l.path, k + 1, b);
    ReplaceContainerSpec(rules2, l.path, c3);
    var c4 := Insert(c3, k + 2, d);
    InsertThree(c, k, a, b, d);
    ReplaceTwice(rules, l.path, c2, c3);
    ReplaceTwice(rules, l.path, c3, c4);
  }

  lemma InsertThree<T>(c: seq<T>, k: nat, a: T, b: T, d: T)
    requires k <= |c|
    ensures Insert(Insert(Insert(c, k, a), k + 1, b), k + 2, d) == c[..k] + [a, b, d] + c[k..]
  {
    var c2 := Insert(c, k, a);
    var c3 := Insert(c2, k + 1, b);
    assert c2[..k + 1] == c[..k] + [a];
    assert c3[..k + 2] == c[..k] + [a, b];
  }

  /** A node whose subtree has no match for `m` is not an ancestor of the array
      holding a match. */
  lemma MatchNotBelow(rules: seq<Rule>, m: Rule -> bool, l: Loc, n: Rule, fl: Loc)
    requires NodeAt(rules, Pos(l)) == Some(n) && Find(Children(n), m).None?
    requires ValidLoc(rules, fl) && m(ContainerAt(rules, fl.path).value[fl.index])
    ensures !(Pos(l) <= fl.path)
  {
    if Pos(l) <= fl.path {
      var t := fl.path[|Pos(l)|..];
      assert fl.path == Pos(l) + t;
      ContainerSplit(rules, Pos(l), t);
      ContainerSplit(rules, l.path, [l.index]);
      ContainerNode(rules, l.path, l.index);
      ContainerNode(Children(n), t, fl.index);
      FindNoneIff(Children(n), m);
      assert MatchAt(Children(n), m, t + [fl.index]);
      assert false;
    }
  }

  /** From a css rule with a css-loader and a postcss-loader, the transform
      derives all three new rules; the less rules carry the less pattern, and
      none of the three is, or holds, a file-loader when neither the css rule
      nor the less-loader entry is one. */
  lemma DerivedRules(css: Rule, s: Settings)
    requires Find(Children(css), CssLoader).Some? && Find(Children(css), PostcssLoader).Some?
    requires !FileLoader(css) && Find(Children(css), FileLoader).None?
    requires !FileLoader(LessLoaderEntry(s))
    ensures CssModulesRule(css, s).Some?
    ensures WithLessLoader(css.(test := Some(LessPattern)), s).Some?
    ensures WithLessLoader(CssModulesRule(css, s).value.(test := Some(LessPattern)), s).Some?
    ensures var cssModules := CssModulesRule(css, s).value;
            var less := WithLessLoader(css.(test := Some(LessPattern)), s).value;
            var lessModules := WithLessLoader(cssModules.(test := Some(LessPattern)), s).value;
            less.test == Some(LessPattern) && lessModules.test == Some(LessPattern) &&
            cssModules.test == css.test &&
            !FileLoader(cssModules) && Find(Children(cssModules), FileLoader).None? &&
            !FileLoader(less) && Find(Children(less), FileLoader).None? &&
            !FileLoader(lessModules) && Find(Children(lessModules), FileLoader).None?
  {
    var lessRule := css.(test := Some(LessPattern));
    assert Children(lessRule) == Children(css);
    MatchersLookAt("file-loader", lessRule, css);
    CssModulesRuleSpec(css, s);
    var cssModules := CssModulesRule(css, s).value;
    CssModulesRuleSearch(css, s, "file-loader");
    CssModulesRuleSearch(css, s, "postcss-loader");
    WithLessLoaderSpec(lessRule, s);
    WithLessLoaderSearch(lessRule, s, "file-loader");
    var lessModules0 := cssModules.(test := Some(LessPattern));
    assert Children(lessModules0) == Children(cssModules);
    MatchersLookAt("file-loader", lessModules0, cssModules);
    WithLessLoaderSpec(lessModules0, s);
    WithLessLoaderSearch(lessModules0, s, "file-loader");
  }

  /** The whole effect of a transform that finds all four anchors: the css rule
      gets `exclude = include`, then the array holding the file-loader rule gets
      the css-modules, less and less-modules rules, in this order, right before
      the file-loader rule, and nothing else in the tree changes. This holds when
      the css rule's subtree has no file-loader and the less-loader path does not
      look like one (otherwise a later search stops inside an inserted rule). */
  lemma RewireInsertsBeforeFileLoader(rules: seq<Rule>, s: Settings, cl: Loc, fl: Loc, css0: Rule)
    requires Find(rules, IsCssRule) == Some(cl)
    requires NodeAt(rules, Pos(cl)) == Some(css0)
    requires Find(Children(css0), CssLoader).Some?
    requires Find(Children(css0), PostcssLoader).Some?
    requires Find(rules, FileLoader) == Some(fl)
    requires !FileLoader(css0) && Find(Children(css0), FileLoader).None?
    requires !FileLoader(LessLoaderEntry(s))
    ensures var css := css0.(excl := Some(s.includePattern));
            ValidLoc(rules, cl) &&
            CssModulesRule(css, s).Some? &&
            WithLessLoader(css.(test := Some(LessPattern)), s).Some? &&
            WithLessLoader(CssModulesRule(css, s).value.(test := Some(LessPattern)), s).Some? &&
            var cssModules := CssModulesRule(css, s).value;
            var less := WithLessLoader(css.(test := Some(LessPattern)), s).value;
            var lessModules := WithLessLoader(cssModules.(test := Some(LessPattern)), s).value;
            var rules1 := SetAt(rules, cl, css);
            ValidLoc(rules1, fl) &&
            var c := ContainerAt(rules1, fl.path).value;
            FileLoader(c[fl.index]) &&
            RewireLess(rules, s) ==
              (Done, ReplaceContainer(rules1, fl.path, c[..fl.index] + [cssModules, less, lessModules] + c[fl.index..]))
  {
    FindSound(rules, IsCssRule, cl);
    var css := css0.(excl := Some(s.includePattern));
    var rules1 := SetAt(rules, cl, css);
    assert Find(rules1, FileLoader) == Some(fl) by {
      LoaderMatcherIgnoresChildren("file-loader");
      MatchersLookAt("file-loader", css, css0);
      FindAfterSet(rules, FileLoader, cl, css);
    }
    FindSound(rules1, FileLoader, fl);

    assert Children(css) == Children(css0);
    DerivedRules(css, s);
    var cssModules := CssModulesRule(css, s).value;
    var less := WithLessLoader(css.(test := Some(LessPattern)), s).value;
    var lessModules := WithLessLoader(cssModules.(test := Some(LessPattern)), s).value;

    ThreeBeforeFileLoader(rules1, fl, cssModules, less, lessModules);
    RelocatedUnchanged(rules1, fl, cssModules, less);
    var rules2 := AddBeforeFileLoader(rules1, cssModules).value;
    var rules3 := AddBeforeFileLoader(rules2, less).value;
    var rules4 := AddBeforeFileLoader(rules3, lessModules).value;
    assert RewireFound(rules, cl, s) == (Done, rules4);
  }

  /** Three `addBeforeRule(config.module.rules, fileLoaderMatcher, ...)` calls
      with rules that are not and hold no file-loader: all three succeed and
      the rules end up, in call order, right before the file-loader rule. */
  lemma ThreeBeforeFileLoader(rules: seq<Rule>, fl: Loc, a: Rule, b: Rule, d: Rule)
    requires Find(rules, FileLoader) == Some(fl)
    requires !FileLoader(a) && Find(Children(a), FileLoader).None?
    requires !FileLoader(b) && Find(Children(b), FileLoader).None?
    ensures ValidLoc(rules, fl)
    ensures AddBeforeFileLoader(rules, a).Some?
    ensures AddBeforeFileLoader(AddBeforeFileLoader(rules, a).value, b).Some?
    ensures var c := ContainerAt(rules, fl.path).value;
            AddBeforeFileLoader(AddBeforeFileLoader(AddBeforeFileLoader(rules, a).value, b).value, d) ==
              Some(ReplaceContainer(rules, fl.path, c[..fl.index] + [a, b, d] + c[fl.index..]))
  {
    LoaderMatcherIgnoresChildren("file-loader");
    ThreeInsertsBefore(rules, FileLoader, fl, a, b, d);
    var rules2 := InsertAt(rules, fl.path, fl.index, a);
    var rules3 := InsertAt(rules2, fl.path, fl.index + 1, b);
    AddBeforeFileLoaderAt(rules, a, fl);
    AddBeforeFileLoaderAt(rules2, b, Loc(fl.path, fl.index + 1));
    AddBeforeFileLoaderAt(rules3, d, Loc(fl.path, fl.index + 2));
  }

  /** When the first rule spliced in before the file-loader holds no
      file-loader, the second splice goes in beside it, not into it: the rule
      the JavaScript clones afterwards is the one it inserted. */
  lemma RelocatedUnchanged(rules: seq<Rule>, fl: Loc, a: Rule, b: Rule)
    requires Find(rules, FileLoader) == Some(fl)
    requires !FileLoader(a) && Find(Children(a), FileLoader).None?
    ensures AddBeforeFileLoader(rules, a).Some?
    ensures AddBeforeFileLoader(AddBeforeFileLoader(rules, a).value, b).Some?
    ensures Relocated(rules, a, b) == a
  {
    LoaderMatcherIgnoresChildren("file-loader");
    AddBeforeFileLoaderAt(rules, a, fl);
    FindAfterInsertBefore(rules, FileLoader, fl.path, fl.index, a);
    var rules2 := AddBeforeFileLoader(rules, a).value;
    AddBeforeFileLoaderAt(rules2, b, Loc(fl.path, fl.index + 1));
    assert !(Pos(fl) <= fl.path);
  }

  /** In the same situation, the css rule and every node that is neither on its
      path nor on the path to the file-loader's array are still in the tree,
      unchanged but for the css rule's `exclude`; the ones after the three new
      rules in that array have moved three places along. */
  lemma RewireKeepsOtherRules(rules: seq<Rule>, s: Settings, cl: Loc, fl: Loc, css0: Rule)
    requires Find(rules, IsCssRule) == Some(cl)
    requires NodeAt(rules, Pos(cl)) == Some(css0)
    requires Find(Children(css0), CssLoader).Some?
    requires Find(Children(css0), PostcssLoader).Some?
    requires Find(rules, FileLoader) == Some(fl)
    requires !FileLoader(css0) && Find(Children(css0), FileLoader).None?
    requires !FileLoader(LessLoaderEntry(s))
    ensures RewireLess(rules, s).0 == Done
    ensures NodeAt(RewireLess(rules, s).1, Shifted(Pos(cl), fl.path, fl.index, 3)) ==
              Some(css0.(excl := Some(s.includePattern)))
    ensures forall pos :: !(pos <= fl.path) && !(pos <= Pos(cl)) && !(Pos(cl) <= pos) ==>
              NodeAt(RewireLess(rules, s).1, Shifted(pos, fl.path, fl.index, 3)) == NodeAt(rules, pos)
  {
    RewireInsertsBeforeFileLoader(rules, s, cl, fl, css0);
    FindSound(rules, FileLoader, fl);
    FindSound(rules, IsCssRule, cl);
    MatchNotBelow(rules, FileLoader, cl, css0, fl);
    var css := css0.(excl := Some(s.includePattern));
    var rules1 := SetAt(rules, cl, css);
    SetAtSpec(rules, cl, css);
    var c := ContainerAt(rules1, fl.path).value;
    var cssModules := CssModulesRule(css, s).value;
    var less := WithLessLoader(css.(test := Some(LessPattern)), s).value;
    var lessModules := WithLessLoader(cssModules.(test := Some(LessPattern)), s).value;
    var vs := [cssModules, less, lessModules];
    forall pos | !(pos <= fl.path)
      ensures NodeAt(RewireLess(rules, s).1, Shifted(pos, fl.path, fl.index, 3)) == NodeAt(rules1, pos)
    {
      SpliceNodes(rules1, fl.path, fl.index, vs, pos);
    }
  }

}

=== FILE: rules.dfy ===
/** The bundler's module-rule tree, the child extraction `ruleChildren`, and
    addressing of the sequences inside the tree by paths of indices. */
module Rules {

  import opened Wrappers

  /** A `test`, `include` or `exclude` pattern, represented by its string form
      `String(pattern)`: the code only ever compares patterns through that form. */
  type Pattern = string

  /** A value stored in a loader's `options` object. */
  datatype OptVal = Flag(b: bool) | Text(s: string) | Other(tag: string)

  type Options = map<string, OptVal>

  /** The `loader` field: absent, a single loader path, or an array of loader entries. */
  datatype LoaderField = NoLoader | LoaderPath(path: string) | LoaderChain(chain: seq<Rule>)

  /** An optional array-valued field (`use`, `oneOf`). */
  datatype RuleArray = Absent | Present(items: seq<Rule>)

  /** One rule or loader entry of the configuration. */
  datatype Rule = Rule(
    test: Option<Pattern>,
    incl: Option<Pattern>,  // `include`
    excl: Option<Pattern>,  // `exclude`
    loader: LoaderField,
    use: RuleArray,
    oneOf: RuleArray,
    options: Option<Options>)

  /** Whether `ruleChildren` finds a child array in the node itself. */
  predicate HasChildren(r: Rule) {
    r.use.Present? || r.oneOf.Present? || r.loader.LoaderChain?
  }

  /** `ruleChildren`: `use`, else `oneOf`, else `loader` when it is an array, else empty. */
  function Children(r: Rule): (cs: seq<Rule>)
    ensures HasChildren(r) ==> (r decreases to cs)
    ensures !HasChildren(r) ==> cs == []
  {
    if r.use.Present? then r.use.items
    else if r.oneOf.Present? then r.oneOf.items
    else if r.loader.LoaderChain? then r.loader.chain
    else []
  }

  /** Replaces the array `ruleChildren` returns; a node without one is left
      as it is (the JavaScript splices into a fresh `[]` that nobody keeps). */
  function WithChildren(r: Rule, cs: seq<Rule>): Rule {
    if r.use.Present? then r.(use := Present(cs))
    else if r.oneOf.Present? then r.(oneOf := Present(cs))
    else if r.loader.LoaderChain? then r.(loader := LoaderChain(cs))
    else r
  }

  /** Two nodes that agree on everything except the child array `ruleChildren` returns. */
  predicate SameExceptChildren(a: Rule, b: Rule) {
    HasChildren(a) == HasChildren(b) && WithChildren(a, Children(b)) == b
  }

  lemma ChildrenRoundTrip(r: Rule, cs: seq<Rule>)
    ensures WithChildren(r, Children(r)) == r
    ensures HasChildren(WithChildren(r, cs)) == HasChildren(r)
    ensures HasChildren(r) ==> Children(WithChildren(r, cs)) == cs
    ensures !HasChildren(r) ==> Children(r) == [] && WithChildren(r, cs) == r
    ensures SameExceptChildren(r, WithChildren(r, cs))
  {
  }

  /** A handle `{index, rules}`: the path of indices that leads from the root
      array to the array `rules`, and the position within it. */
  datatype Loc = Loc(path: seq<nat>, index: nat)

  /** The position of the located node itself. */
  function Pos(l: Loc): seq<nat> {
    l.path + [l.index]
  }

  /** The array reached from `rules` by following `path`: each index picks a
      node and descends into its `ruleChildren` array. */
  function ContainerAt(rules: seq<Rule>, path: seq<nat>): Option<seq<Rule>>
    decreases |path|
  {
    if path == [] then Some(rules)
    else if path[0] < |rules| && HasChildren(rules[path[0]]) then ContainerAt(Children(rules[path[0]]), path[1..])
    else None
  }

  /** The node at position `pos` (a non-empty path whose last index selects the node). */
  function NodeAt(rules: seq<Rule>, pos: seq<nat>): Option<Rule>
    decreases |pos|
  {
    if pos == [] || pos[0] >= |rules| then None
    else if |pos| == 1 then Some(rules[pos[0]])
    else NodeAt(Children(rules[pos[0]]), pos[1..])
  }

  predicate ValidLoc(rules: seq<Rule>, l: Loc) {
    ContainerAt(rules, l.path).Some? && l.index < |ContainerAt(rules, l.path).value|
  }

  /** The located array holds the node at the located position; the array is
      the root or the child array of the node its path leads to. */
  lemma {:induction false} ContainerNode(rules: seq<Rule>, path: seq<nat>, k: nat)
    requires ContainerAt(rules, path).Some? && k < |ContainerAt(rules, path).value|
    ensures NodeAt(rules, path + [k]) == Some(ContainerAt(rules, path).value[k])
    ensures path == [] ==> ContainerAt(rules, path).value == rules
    ensures path != [] ==> NodeAt(rules, path).Some? && HasChildren(NodeAt(rules, path).value)
                           && ContainerAt(rules, path).value == Children(NodeAt(rules, path).value)
    decreases |path|
  {
    if path != [] {
      var i := path[0];
      assert (path + [k])[1..] == path[1..] + [k];
      ContainerNode(Children(rules[i]), path[1..], k);
    }
  }

  /** Puts `nc` in place of the array at `path`, rebuilding the nodes on the way. */
  function ReplaceContainer(rules: seq<Rule>, path: seq<nat>, nc: seq<Rule>): seq<Rule>
    requires ContainerAt(rules, path).Some?
    decreases |path|
  {
    if path == [] then nc
    else
      var i := path[0];
      rules[i := WithChildren(rules[i], ReplaceContainer(Children(rules[i]), path[1..], nc))]
  }

  /** After the replacement the path leads to the new array; every node that is
      neither on the path nor below it is unchanged; the nodes on the path keep
      every field except their child array. */
  lemma {:induction false} ReplaceContainerSpec(rules: seq<Rule>, path: seq<nat>, nc: seq<Rule>)
    requires ContainerAt(rules, path).Some?
    ensures ContainerAt(ReplaceContainer(rules, path, nc), path) == Some(nc)
    ensures path != [] ==> |ReplaceContainer(rules, path, nc)| == |rules|
    ensures forall pos :: !(path <= pos) && !(pos <= path) ==>
              NodeAt(ReplaceContainer(rules, path, nc), pos) == NodeAt(rules, pos)
    ensures forall pos :: pos != [] && pos <= path ==>
              NodeAt(rules, pos).Some? && NodeAt(ReplaceContainer(rules, path, nc), pos).Some? &&
              SameExceptChildren(NodeAt(rules, pos).value, NodeAt(ReplaceContainer(rules, path, nc), pos).value)
    decreases |path|
  {
    if path != [] {
      var i := path[0];
      var inner := ReplaceContainer(Children(rules[i]), path[1..], nc);
      var r := ReplaceContainer(rules, path, nc);
      ReplaceContainerSpec(Children(rules[i]), path[1..], nc);
      ChildrenRoundTrip(rules[i], inner);
      assert r[i] == WithChildren(rules[i], inner);
      assert Children(r[i]) == inner;
      forall pos | !(path <= pos) && !(pos <= path)
        ensures NodeAt(r, pos) == NodeAt(rules, pos)
      {
        if pos != [] && pos[0] == i && |pos| > 1 {
          PrefixTail(path, pos);
          PrefixTail(pos, path);
        }
      }
      forall pos | pos != [] && pos <= path
        ensures NodeAt(rules, pos).Some? && NodeAt(r, pos).Some?
        ensures SameExceptChildren(NodeAt(rules, pos).value, NodeAt(r, pos).value)
      {
        assert pos[0] == i;
        if |pos| > 1 {
          assert pos[1..] <= path[1..];
        }
      }
    }
  }

  lemma PrefixTail(a: seq<nat>, b: seq<nat>)
    requires a != [] && b != [] && a[0] == b[0]
    ensures (a <= b) == (a[1..] <= b[1..])
  {
    assert a == [a[0]] + a[1..] && b == [b[0]] + b[1..];
  }

  /** `s.splice(k, 0, v)`. */
  function Insert<T>(s: seq<T>, k: nat, v: T): (r: seq<T>)
    requires k <= |s|
    ensures |r| == |s| + 1 && r[k] == v
    ensures r[..k] == s[..k] && r[k + 1..] == s[k..]
    ensures forall j :: 0 <= j < |s| ==> r[if j < k then j else j + 1] == s[j]
  {
    s[..k] + [v] + s[k..]
  }

  /** Splices `v` into the array at `path`, at index `k`. */
  function InsertAt(rules: seq<Rule>, path: seq<nat>, k: nat, v: Rule): seq<Rule>
    requires ContainerAt(rules, path).Some? && k <= |ContainerAt(rules, path).value|
  {
    ReplaceContainer(rules, path, Insert(ContainerAt(rules, path).value, k, v))
  }

  /** Replaces the located node by `n`, as an assignment to a field of that node does. */
  function SetAt(rules: seq<Rule>, l: Loc, n: Rule): seq<Rule>
    requires ValidLoc(rules, l)
  {
    ReplaceContainer(rules, l.path, ContainerAt(rules, l.path).value[l.index := n])
  }

  /** The path `a + b` is followed by following `a`, then `b` from there. */
  lemma {:induction false} ContainerSplit(rules: seq<Rule>, a: seq<nat>, b: seq<nat>)
    requires ContainerAt(rules, a + b).Some?
    ensures ContainerAt(rules, a).Some?
    ensures ContainerAt(rules, a + b) == ContainerAt(ContainerAt(rules, a).value, b)
    decreases |a|
  {
    if a != [] {
      assert (a + b)[0] == a[0] && (a + b)[1..] == a[1..] + b;
      ContainerSplit(Children(rules[a[0]]), a[1..], b);
    } else {
      assert a + b == b;
    }
  }

  /** A position below `path` names a node of the array at `path`. */
  lemma {:induction false} NodeUnder(rules: seq<Rule>, path: seq<nat>, q: seq<nat>)
    requires ContainerAt(rules, path).Some? && q != []
    ensures NodeAt(rules, path + q) == NodeAt(ContainerAt(rules, path).value, q)
    decreases |path|
  {
    if path != [] {
      assert (path + q)[0] == path[0] && (path + q)[1..] == path[1..] + q;
      NodeUnder(Children(rules[path[0]]), path[1..], q);
    } else {
      assert path + q == q;
    }
  }

  /** Where the node at `pos` is after `n` rules are spliced into the array at
      `path` at index `k`: the nodes of that array from `k` on, with everything
      below them, move `n` places along; every other node stays where it was. */
  function Shifted(pos: seq<nat>, path: seq<nat>, k: nat, n: nat): seq<nat> {
    if path < pos && pos[|path|] >= k then pos[|path| := pos[|path|] + n] else pos
  }

  /** Replacing the array at `path` twice leaves only the second replacement. */
  lemma {:induction false} ReplaceTwice(rules: seq<Rule>, path: seq<nat>, x: seq<Rule>, y: seq<Rule>)
    requires ContainerAt(rules, path).Some?
    ensures ContainerAt(ReplaceContainer(rules, path, x), path).Some?
    ensures ReplaceContainer(ReplaceContainer(rules, path, x), path, y) == ReplaceContainer(rules, path, y)
    decreases |path|
  {
    ReplaceContainerSpec(rules, path, x);
    if path != [] {
      var i := path[0];
      var inner := ReplaceContainer(Children(rules[i]), path[1..], x);
      ChildrenRoundTrip(rules[i], inner);
      ReplaceTwice(Children(rules[i]), path[1..], x, y);
    }
  }

  /** Splicing the rules `vs` into the array at `path` at index `k` moves the
      nodes of that array from `k` on, with their subtrees, `|vs|` places along,
      and leaves every node that is not an ancestor of that array where it was. */
  lemma SpliceNodes(rules: seq<Rule>, path: seq<nat>, k: nat, vs: seq<Rule>, pos: seq<nat>)
    requires ContainerAt(rules, path).Some? && k <= |ContainerAt(rules, path).value|
    requires !(pos <= path)
    ensures var c := ContainerAt(rules, path).value;
            NodeAt(ReplaceContainer(rules, path, c[..k] + vs + c[k..]), Shifted(pos, path, k, |vs|)) == NodeAt(rules, pos)
  {
    var c := ContainerAt(rules, path).value;
    var c' := c[..k] + vs + c[k..];
    var r' := ReplaceContainer(rules, path, c');
    ReplaceContainerSpec(rules, path, c');
    if path < pos {
      var q := pos[|path|..];
      var q' := q[0 := if q[0] >= k then q[0] + |vs| else q[0]];
      assert pos == path + q;
      assert Shifted(pos, path, k, |vs|) == path + q';
      NodeUnder(rules, path, q);
      NodeUnder(r', path, q');
      NodeAtSpliced(c, k, vs, q);
    }
  }

  lemma NodeAtSpliced(c: seq<Rule>, k: nat, vs: seq<Rule>, q: seq<nat>)
    requires k <= |c| && q != []
    ensures NodeAt(c[..k] + vs + c[k..], q[0 := if q[0] >= k then q[0] + |vs| else q[0]]) == NodeAt(c, q)
  {
    var c' := c[..k] + vs + c[k..];
    var q' := q[0 := if q[0] >= k then q[0] + |vs| else q[0]];
    assert q'[1..] == q[1..];
    if q[0] < |c| {
      assert c'[q'[0]] == c[q[0]];
    }
  }

  /** A node of the tree is still in it after `v` is spliced into the array at
      `path`, at its `Shifted` position: unchanged when the splice is not below
      it, changed only in its child array when it is. */
  lemma InsertAtMoves(rules: seq<Rule>, path: seq<nat>, k: nat, v: Rule, pos: seq<nat>)
    requires ContainerAt(rules, path).Some? && k <= |ContainerAt(rules, path).value|
    requires NodeAt(rules, pos).Some?
    ensures NodeAt(InsertAt(rules, path, k, v), Shifted(pos, path, k, 1)).Some?
    ensures SameExceptChildren(NodeAt(rules, pos).value, NodeAt(InsertAt(rules, path, k, v), Shifted(pos, path, k, 1)).value)
    ensures !(pos <= path) ==> NodeAt(InsertAt(rules, path, k, v), Shifted(pos, path, k, 1)) == NodeAt(rules, pos)
  {
    var c := ContainerAt(rules, path).value;
    assert Insert(c, k, v) == c[..k] + [v] + c[k..];
    if pos <= path {
      ReplaceContainerSpec(rules, path, Insert(c, k, v));
    } else {
      SpliceNodes(rules, path, k, [v], pos);
      ChildrenRoundTrip(NodeAt(rules, pos).value, Children(NodeAt(rules, pos).value));
    }
  }

  /** Assigning to a field of the located node: the node at its position is the
      new one, the nodes on its path keep every field but their child arrays,
      and no other node changes except those below it. */
  lemma SetAtSpec(rules: seq<Rule>, l: Loc, n: Rule)
    requires ValidLoc(rules, l)
    ensures NodeAt(SetAt(rules, l, n), Pos(l)) == Some(n)
    ensures forall pos :: !(Pos(l) <= pos) && !(pos <= Pos(l)) ==>
              NodeAt(SetAt(rules, l, n), pos) == NodeAt(rules, pos)
    ensures forall pos :: pos != [] && pos < Pos(l) ==>
              NodeAt(rules, pos).Some? && NodeAt(SetAt(rules, l, n), pos).Some? &&
              SameExceptChildren(NodeAt(rules, pos).value, NodeAt(SetAt(rules, l, n), pos).value)
  {
    var c := ContainerAt(rules, l.path).value;
    var r := SetAt(rules, l, n);
    ReplaceContainerSpec(rules, l.path, c[l.index := n]);
    ContainerNode(r, l.path, l.index);
    forall pos | !(Pos(l) <= pos) && !(pos <= Pos(l))
      ensures NodeAt(r, pos) == NodeAt(rules, pos)
    {
      if l.path < pos {
        var q := pos[|l.path|..];
        assert pos == l.path + q;
        NodeUnder(rules, l.path, q);
        NodeUnder(r, l.path, q);
        assert q[0] != l.index;
      }
    }
  }

}

=== FILE: splice.dfy ===
/** `addBeforeRule` and `addAfterRule`: splice a value into the array the
    locator returns, and what a later search sees after such a splice. */
module Splice {

  import opened Wrappers
  import opened Rules
  import opened Locator

  /** `rules.splice(k, 0, v)` on the array at `path` below the source. */
  function SpliceInto(src: Source, path: seq<nat>, k: nat, v: Rule): Source
    requires ContainerAt(Roots(src), path).Some? && k <= |ContainerAt(Roots(src), path).value|
  {
    match src
    case List(rules) => List(InsertAt(rules, path, k, v))
    case Single(node) => Single(WithChildren(node, InsertAt(Children(node), path, k, v)))
  }

  /** `addBeforeRule`: `value` goes in at the located index; `None` where the
      JavaScript throws because nothing matched. */
  function AddBeforeRule(src: Source, m: Rule -> bool, v: Rule): Option<Source> {
    match FindIndexAndRules(src, m)
    case None => None
    case Some(l) =>
      FindSound(Roots(src), m, l);
      Some(SpliceInto(src, l.path, l.index, v))
  }

  /** `addAfterRule`: `value` goes in right after the located node. */
  function AddAfterRule(src: Source, m: Rule -> bool, v: Rule): Option<Source> {
    match FindIndexAndRules(src, m)
    case None => None
    case Some(l) =>
      FindSound(Roots(src), m, l);
      Some(SpliceInto(src, l.path, l.index + 1, v))
  }

  lemma SpliceIntoSpec(src: Source, path: seq<nat>, k: nat, v: Rule)
    requires Roots(src) != []
    requires ContainerAt(Roots(src), path).Some? && k <= |ContainerAt(Roots(src), path).value|
    ensures var c := ContainerAt(Roots(src), path).value;
            ContainerAt(Roots(SpliceInto(src, path, k, v)), path) == Some(c[..k] + [v] + c[k..])
    ensures forall pos :: !(path <= pos) && !(pos <= path) ==>
              NodeAt(Roots(SpliceInto(src, path, k, v)), pos) == NodeAt(Roots(src), pos)
    ensures forall pos :: pos != [] && pos <= path ==>
              NodeAt(Roots(src), pos).Some? && NodeAt(Roots(SpliceInto(src, path, k, v)), pos).Some? &&
              SameExceptChildren(NodeAt(Roots(src), pos).value, NodeAt(Roots(SpliceInto(src, path, k, v)), pos).value)
    ensures SpliceInto(src, path, k, v).Single? == src.Single?
    ensures src.Single? ==> SameExceptChildren(src.node, SpliceInto(src, path, k, v).node)
  {
    var rules := Roots(src);
    var nc := Insert(ContainerAt(rules, path).value, k, v);
    ReplaceContainerSpec(rules, path, nc);
    if src.Single? {
      ChildrenRoundTrip(src.node, ReplaceContainer(rules, path, nc));
    }
  }

  /** `addBeforeRule` fails exactly when nothing matches; otherwise the located
      array grows by one, `value` sits at the located index, the elements before
      it keep their places and the rest (the located node first) move up by one;
      nodes off the path are unchanged and the nodes on the path change only in
      their child array. */
  lemma AddBeforeRuleSpec(src: Source, m: Rule -> bool, v: Rule)
    ensures AddBeforeRule(src, m, v).Some? <==> FindIndexAndRules(src, m).Some?
    ensures AddBeforeRule(src, m, v).Some? ==>
              var l := FindIndexAndRules(src, m).value;
              var r := AddBeforeRule(src, m, v).value;
              ValidLoc(Roots(src), l) && ContainerAt(Roots(r), l.path).Some? &&
              var c := ContainerAt(Roots(src), l.path).value;
              var c' := ContainerAt(Roots(r), l.path).value;
              c' == c[..l.index] + [v] + c[l.index..] && m(c[l.index]) &&
              (forall pos :: !(l.path <= pos) && !(pos <= l.path) ==> NodeAt(Roots(r), pos) == NodeAt(Roots(src), pos)) &&
              (forall pos :: pos != [] && pos <= l.path ==>
                 NodeAt(Roots(src), pos).Some? && NodeAt(Roots(r), pos).Some? &&
                 SameExceptChildren(NodeAt(Roots(src), pos).value, NodeAt(Roots(r), pos).value)) &&
              (src.Single? ==> r.Single? && SameExceptChildren(src.node, r.node)) &&
              (src.List? ==> r.List?)
  {
    if FindIndexAndRules(src, m).Some? {
      var l := FindIndexAndRules(src, m).value;
      FindSound(Roots(src), m, l);
      assert AddBeforeRule(src, m, v) == Some(SpliceInto(src, l.path, l.index, v));
      SpliceIntoSpec(src, l.path, l.index, v);
    }
  }

  /** `addAfterRule` fails exactly when nothing matches; otherwise the located
      array grows by one, the located node keeps its index and `value` follows
      it immediately; nodes off the path are unchanged and the nodes on the
      path change only in their child array. */
  lemma AddAfterRuleSpec(src: Source, m: Rule -> bool, v: Rule)
    ensures AddAfterRule(src, m, v).Some? <==> FindIndexAndRules(src, m).Some?
    ensures AddAfterRule(src, m, v).Some? ==>
              var l := FindIndexAndRules(src, m).value;
              var r := AddAfterRule(src, m, v).value;
              ValidLoc(Roots(src), l) && ContainerAt(Roots(r), l.path).Some? &&
              var c := ContainerAt(Roots(src), l.path).value;
              var c' := ContainerAt(Roots(r), l.path).value;
              c' == c[..l.index + 1] + [v] + c[l.index + 1..] && m(c[l.index]) &&
              (forall pos :: !(l.path <= pos) && !(pos <= l.path) ==> NodeAt(Roots(r), pos) == NodeAt(Roots(src), pos)) &&
              (forall pos :: pos != [] && pos <= l.path ==>
                 NodeAt(Roots(src), pos).Some? && NodeAt(Roots(r), pos).Some? &&
                 SameExceptChildren(NodeAt(Roots(src), pos).value, NodeAt(Roots(r), pos).value)) &&
              (src.Single? ==> r.Single? && SameExceptChildren(src.node, r.node)) &&
              (src.List? ==> r.List?)
  {
    if FindIndexAndRules(src, m).Some? {
      var l := FindIndexAndRules(src, m).value;
      FindSound(Roots(src), m, l);
      assert AddAfterRule(src, m, v) == Some(SpliceInto(src, l.path, l.index + 1, v));
      SpliceIntoSpec(src, l.path, l.index + 1, v);
    }
  }

  // ---------------------------------------------------------------------------
  // What a later search sees after a splice or a field assignment.

  /** The matcher does not look at child arrays. */
  ghost predicate IgnoresChildren(m: Rule -> bool) {
    forall r, cs :: m(WithChildren(r, cs)) == m(r)
  }

  /** Node `j` is passed over by the search: it does not match and nothing below it does. */
  predicate Skipped(rules: seq<Rule>, m: Rule -> bool, j: int) {
    0 <= j < |rules| && !m(rules[j]) && Find(Children(rules[j]), m).None?
  }

  /** Two arrays the search cannot tell apart, node by node. */
  predicate SearchEquivalent(a: seq<Rule>, b: seq<Rule>, m: Rule -> bool) {
    |a| == |b| &&
    forall j :: 0 <= j < |a| ==>
      m(a[j]) == m(b[j]) && HasChildren(a[j]) == HasChildren(b[j]) &&
      Find(Children(a[j]), m) == Find(Children(b[j]), m)
  }

  lemma {:induction false} FindFromEquivalent(a: seq<Rule>, b: seq<Rule>, m: Rule -> bool, i: nat)
    requires SearchEquivalent(a, b, m)
    ensures FindFrom(a, m, i) == FindFrom(b, m, i)
    decreases |a| - i
  {
    if i < |a| {
      FindFromEquivalent(a, b, m, i + 1);
    }
  }

  lemma {:induction false} FindFromSkip(rules: seq<Rule>, m: Rule -> bool, i: nat, n: nat)
    requires i <= n <= |rules|
    requires forall j :: i <= j < n ==> Skipped(rules, m, j)
    ensures FindFrom(rules, m, i) == FindFrom(rules, m, n)
    decreases n - i
  {
    if i < n {
      assert Skipped(rules, m, i);
      FindFromSkip(rules, m, i + 1, n);
    }
  }

  /** What the search passed over before it stopped, and why it stopped. */
  lemma {:induction false} FindFromShape(rules: seq<Rule>, m: Rule -> bool, i: nat)
    requires FindFrom(rules, m, i).Some?
    ensures var l := FindFrom(rules, m, i).value;
            i <= Top(l) < |rules| &&
            (forall j :: i <= j < Top(l) ==> Skipped(rules, m, j)) &&
            (l.path == [] ==> m(rules[l.index])) &&
            (l.path != [] ==> !m(rules[Top(l)]) && HasChildren(rules[Top(l)]) &&
                              Find(Children(rules[Top(l)]), m) == Some(Loc(l.path[1..], l.index)))
    decreases |rules| - i
  {
    var l := FindFrom(rules, m, i).value;
    if !m(rules[i]) {
      if HasChildren(rules[i]) && FindFrom(Children(rules[i]), m, 0).Some? {
        var sub := FindFrom(Children(rules[i]), m, 0).value;
        assert l == Loc([i] + sub.path, sub.index);
        assert l.path[1..] == sub.path;
      } else {
        FindFromShape(rules, m, i + 1);
        assert Skipped(rules, m, i);
      }
    }
  }

  lemma {:induction false} FindFromNoneShape(rules: seq<Rule>, m: Rule -> bool, i: nat)
    requires FindFrom(rules, m, i).None?
    ensures forall j :: i <= j < |rules| ==> Skipped(rules, m, j)
    decreases |rules| - i
  {
    if i < |rules| {
      FindFromNoneShape(rules, m, i + 1);
    }
  }

  /** Inserting, before the first match, a node in whose subtree nothing
      matches leaves the first match where it was, one index further on. */
  lemma {:induction false} FindAfterInsertBefore(rules: seq<Rule>, m: Rule -> bool, path: seq<nat>, k: nat, v: Rule)
    requires Find(rules, m) == Some(Loc(path, k))
    requires IgnoresChildren(m)
    requires !m(v) && Find(Children(v), m).None?
    ensures ContainerAt(rules, path).Some? && k < |ContainerAt(rules, path).value|
    ensures Find(InsertAt(rules, path, k, v), m) == Some(Loc(path, k + 1))
    decreases |path|
  {
    FindSound(rules, m, Loc(path, k));
    var r' := InsertAt(rules, path, k, v);
    if path == [] {
      FindAfterInsertBeforeTop(rules, m, k, v);
    } else {
      FindFromShape(rules, m, 0);
      var i := path[0];
      var ch := Children(rules[i]);
      FindAfterInsertBefore(ch, m, path[1..], k, v);
      var ch' := InsertAt(ch, path[1..], k, v);
      assert r' == rules[i := WithChildren(rules[i], ch')];
      ChildrenRoundTrip(rules[i], ch');
      assert !m(r'[i]);
      forall j | 0 <= j < i ensures Skipped(r', m, j) {
        assert r'[j] == rules[j];
        assert Skipped(rules, m, j);
      }
      FindFromSkip(r', m, 0, i);
      assert [i] + path[1..] == path;
    }
  }

  lemma FindAfterInsertBeforeTop(rules: seq<Rule>, m: Rule -> bool, k: nat, v: Rule)
    requires Find(rules, m) == Some(Loc([], k))
    requires !m(v) && Find(Children(v), m).None?
    ensures k < |rules| && Find(Insert(rules, k, v), m) == Some(Loc([], k + 1))
  {
    FindFromShape(rules, m, 0);
    var r' := Insert(rules, k, v);
    forall j | 0 <= j < k + 1 ensures Skipped(r', m, j) {
      if j < k {
        assert r'[j] == r'[..k][j] == rules[..k][j] == rules[j];
        assert Skipped(rules, m, j);
      }
    }
    FindFromSkip(r', m, 0, k + 1);
    assert r'[k + 1] == r'[k + 1..][0] == rules[k..][0] == rules[k];
  }

  /** Inserting a node in whose subtree nothing matches into a tree in which
      nothing matches leaves a tree in which nothing matches. */
  lemma {:induction false} FindAfterInsertNone(rules: seq<Rule>, m: Rule -> bool, path: seq<nat>, k: nat, v: Rule)
    requires Find(rules, m).None?
    requires IgnoresChildren(m)
    requires ContainerAt(rules, path).Some? && k <= |ContainerAt(rules, path).value|
    requires !m(v) && Find(Children(v), m).None?
    ensures Find(InsertAt(rules, path, k, v), m).None?
    decreases |path|
  {
    FindFromNoneShape(rules, m, 0);
    var r' := InsertAt(rules, path, k, v);
    if path == [] {
      assert r' == Insert(rules, k, v);
      forall j | 0 <= j < |r'| ensures Skipped(r', m, j) {
        if j < k {
          assert r'[j] == r'[..k][j] == rules[..k][j] == rules[j];
          assert Skipped(rules, m, j);
        } else if j > k {
          assert r'[j] == r'[k + 1..][j - k - 1] == rules[k..][j - k - 1] == rules[j - 1];
          assert Skipped(rules, m, j - 1);
        }
      }
      FindFromSkip(r', m, 0, |r'|);
    } else {
      var i := path[0];
      var ch := Children(rules[i]);
      assert Skipped(rules, m, i);
      FindAfterInsertNone(ch, m, path[1..], k, v);
      var ch' := InsertAt(ch, path[1..], k, v);
      assert r' == rules[i := WithChildren(rules[i], ch')];
      ChildrenRoundTrip(rules[i], ch');
      assert SearchEquivalent(r', rules, m);
      FindFromEquivalent(r', rules, m, 0);
    }
  }

  /** Replacing a node by one the search cannot tell from it (same match, same
      children as far as the search goes) does not change the search result. */
  lemma {:induction false} FindAfterSet(rules: seq<Rule>, m: Rule -> bool, l: Loc, n: Rule)
    requires ValidLoc(rules, l)
    requires IgnoresChildren(m)
    requires var o := ContainerAt(rules, l.path).value[l.index];
             m(n) == m(o) && HasChildren(n) == HasChildren(o) && Find(Children(n), m) == Find(Children(o), m)
    ensures Find(SetAt(rules, l, n), m) == Find(rules, m)
    decreases |l.path|
  {
    var r' := SetAt(rules, l, n);
    if l.path == [] {
      assert r' == rules[l.index := n];
      assert SearchEquivalent(r', rules, m);
      FindFromEquivalent(r', rules, m, 0);
    } else {
      var i := l.path[0];
      var ch := Children(rules[i]);
      var l' := Loc(l.path[1..], l.index);
      FindAfterSet(ch, m, l', n);
      var ch' := SetAt(ch, l', n);
      assert r' == rules[i := WithChildren(rules[i], ch')];
      ChildrenRoundTrip(rules[i], ch');
      assert SearchEquivalent(r', rules, m);
      FindFromEquivalent(r', rules, m, 0);
    }
  }

}

=== FILE: wrappers.dfy ===
/** The optional value used wherever the JavaScript code yields `undefined`. */
module Wrappers {

  datatype Option<+T> = None | Some(value: T)

}
